=== FILE: README.md ===
# fmcardgen card drawing, modelled in Dafny

fmcardgen renders social-media cards from a Markdown file's front matter:
each configured text field is written onto a template image. This project
models the part of `fmcardgen/draw.py` that decides what gets drawn:

- `wrap_font_text`: the greedy, measurement-driven line breaker. It takes a
  sequence of chunks, each a run of spaces or a run without one. It measures
  every chunk with the font and starts a new line when the next chunk would
  push the accumulated width past the budget. Every line is concatenated and
  stripped, and the lines are joined with line feeds (module `Wrap`, with
  Python's `isspace`, `strip`, `join` and `split("\n")` in module `Text`).
- `draw_text_field`: the field's font choice and wrapping budget; whether
  the text is wrapped; the padded background rectangle composited before
  the text; and the text drawn last. It is modelled as the ordered trace of
  abstract drawing operations it issues. The field loop of `draw` is
  modelled as the concatenation of those traces in configuration order
  (module `Render`).
- `to_pil_color`: the conversion of a configured colour into the drawing
  library's integer tuple, with Python's round-half-to-even written out
  (module `Colors`).

The font's measurement `font.getsize(chunk)[0]` is an uninterpreted width
function. The font's text bounding box and the standard library tokenizer
that cuts text into chunks are uninterpreted functions too. Module
`WrapExamples` applies the wrapper to the test's leading word under any
font that measures it wider than the budget, and to concrete chunks with a
monospace-like width of 15 units per character plus 3 per chunk.

The loop's own quirks are kept as written:

- The overflow special case tests whether the accumulated *width* is zero,
  not whether the pending line is empty. It also resets the pending line,
  which drops any zero-width chunks it held.
- A whitespace chunk that breaks a line is discarded, but its width still
  seeds the next line. A following chunk that overflows by itself therefore
  closes an empty line.
- The final flush tests whether the pending line is empty, not its width.

Reading the special case as "the pending line is empty" would give a
different wrapper. The code (`fmcardgen/draw.py:103`) tests
`cur_line_width == 0`, and the model follows the code.
`WrapExamples.ZeroWidthChunkDropped` shows an input where the two readings
differ.

## Model

| member | source | states |
|---|---|---|
| Wrap.StepShape | fmcardgen/draw.py:95-115 | One loop iteration never revises an emitted line and adds at most one. It emits a line exactly when the chunk would push the accumulated width past the budget; otherwise the chunk joins the pending line. After a break the pending line is empty or is the chunk alone, and then only if it is not whitespace |
| Wrap.WrapFontText | fmcardgen/draw.py:87-120 | No chunks give the empty text, and a single chunk comes back stripped whatever its width |
| Wrap.OneChunkOneLine | fmcardgen/draw.py:99-118 | A single chunk is one line, whether it fits the budget or overflows it |
| Wrap.WrapLoop | fmcardgen/draw.py:87-120 | The loop statement for statement, with the special case (whose `continue` becomes an `else`), the whitespace-dropping break and the final flush, returns exactly the text given by the recursive fold `Step`/`Run`/`Flush` of the loop body, with each line concatenated, stripped and joined with line feeds |
| Wrap.WordsPreserved | fmcardgen/draw.py:95-120 | Provided every chunk measures more than zero, the non-whitespace chunks across the output lines are exactly the input's non-whitespace chunks, in the same order: none is dropped, duplicated, split or reordered |
| Wrap.LinesFit | fmcardgen/draw.py:99-115 | With non-negative measurements, every emitted line either has a summed chunk width within the budget or is exactly one chunk; even a line left empty by the whitespace-break quirk is within the budget, since a negative budget never lets a width accumulate |
| Wrap.WideChunkAlone | fmcardgen/draw.py:99-111 | With non-negative measurements, a chunk wider than the budget never shares a line with another chunk, even when it seeds a line after a break |
| Wrap.LinesFromInput | fmcardgen/draw.py:95-118 | Every chunk of every output line is one of the input's chunks |
| Wrap.LeadingOverlongChunk | fmcardgen/draw.py:100-107 | A first chunk wider than the budget becomes a line by itself, and the remaining chunks are wrapped as if they stood alone |
| Wrap.LongestFitThenBreak | fmcardgen/draw.py:98-115 | With non-negative measurements of the absorbed chunks, from any state the pending line absorbs exactly the longest run of chunks whose accumulated width stays within budget. The next chunk closes it: if the accumulated width is still zero, that chunk becomes its own line and the pending line is dropped; otherwise the pending line is emitted and the chunk seeds the next line, unless it is whitespace, in which case only its width does |
| Wrap.FirstLineIsLongestFit | fmcardgen/draw.py:98-115 | With non-negative measurements of its chunks, the first output line is the longest prefix of the input whose summed width is positive and within budget |
| Wrap.AllFitOneLine | fmcardgen/draw.py:113-118 | With non-negative measurements, input whose total width fits the budget comes out as one line holding all of it; the wrapper never breaks early |
| Wrap.WrapFromCleanState | fmcardgen/draw.py:103-107 | After the special case resets the pending line and width to empty and zero, the rest of the input is wrapped exactly as a fresh input would be, after the lines already emitted |
| Wrap.LineCountBound | fmcardgen/draw.py:95-118 | The loop emits at most one line per chunk, so there are never more lines than chunks |
| Wrap.LinesNonEmpty | fmcardgen/draw.py:95-118 | At least one line is emitted exactly when there is at least one chunk |
| Wrap.RenderedLines | fmcardgen/draw.py:117-120 | No chunks give the empty text. Otherwise, when no chunk holds a line feed, splitting the returned text at line feeds gives exactly one piece per emitted line. Each piece is that line's chunks concatenated and stripped, so no piece starts or ends with whitespace |
| WrapExamples.DoubleWordFirstLine | tests/test_draw.py:83-94 | For any font that measures the doubled "supercalifragilisticexpialidocious" wider than the 600 budget, that word is the whole first line, whatever follows, and the rest is wrapped on its own |
| WrapExamples.BlankLineAfterWhitespaceBreak | fmcardgen/draw.py:109-111 | When a whitespace chunk breaks a line and the following chunk overflows together with the leftover whitespace width, an empty line is emitted between the two |
| WrapExamples.BlankLineExample | fmcardgen/draw.py:109-111 | Concretely, "word", " ", "supercalifragilisticexpialidocious" under a budget of 70 wrap to the lines ["word"], [] and the long word |
| WrapExamples.ZeroWidthChunkDropped | fmcardgen/draw.py:103-106 | A pending zero-width, non-whitespace chunk is discarded when an over-long chunk follows, so positive widths are needed for content preservation |
| Text.Strip | fmcardgen/draw.py:120 | `str.strip`: the result is a slice of the input outside of which there is only whitespace, and it has no whitespace at either end. A string without whitespace comes back unchanged, and the result is empty exactly when the input is all whitespace |
| Text.StripUnique | fmcardgen/draw.py:120 | Any slice that cuts only whitespace away and leaves none at its ends is the strip, so the description of stripping leaves no choice |
| Text.SpaceIsStrippedAway | fmcardgen/draw.py:110 | `str.isspace` holds exactly of a non-empty string that stripping empties |
| Text.Concat | fmcardgen/draw.py:120 | `"".join`: no parts give the empty string, and one part comes back as it is |
| Text.ConcatAppend | fmcardgen/draw.py:120 | Joining the parts of two lists in turn is joining each list and concatenating the results |
| Text.JoinLines | fmcardgen/draw.py:120 | `"\n".join`: no lines give the empty text, and one line comes back as it is, with no line feed added |
| Text.StripTrimmed | fmcardgen/draw.py:120 | A non-empty string with no whitespace at either end is its own strip |
| Text.JoinSplit | fmcardgen/draw.py:120 | Joining with line feeds undoes splitting at line feeds |
| Text.SplitJoin | fmcardgen/draw.py:120 | Splitting at line feeds undoes joining with line feeds, for one or more lines that hold no line feed |
| Colors.ToPilColor | fmcardgen/draw.py:126-140 | A three-channel colour stays three-channel, and a four-channel one stays four-channel. Red, green and blue pass through unchanged. The alpha is the integer nearest to `a * 255`, and the even one when `a * 255` lies halfway between two integers |
| Colors.RoundHalfEven | fmcardgen/draw.py:140 | Python's `round`: the result is within one half of its argument, and on a tie it is even |
| Colors.RoundIsNearest | fmcardgen/draw.py:140 | No integer is closer to the argument than its rounding |
| Colors.RoundUnique | fmcardgen/draw.py:140 | Any integer within one half that is even on a tie is the rounding; the rounding rule leaves no choice |
| Colors.AlphaInRange | fmcardgen/draw.py:138-140 | An alpha fraction in [0, 1] becomes an alpha in [0, 255] |
| Colors.AlphaByteRoundTrip | fmcardgen/draw.py:138-140 | An alpha of k/255, which a hex alpha byte k parses to, converts back to exactly k |
| Colors.ConversionExamples | tests/test_draw.py:44-50 | The background `#ff000066` of the background test reaches the drawing library as (255, 0, 0, 102); so does the fraction 0.4; the halfway alpha 0.5 becomes the even 128; an opaque colour passes unchanged |
| Render.SelectFont | fmcardgen/draw.py:51-54 | The default-font sentinel selects the built-in font. Any other font selects that file at the field's font size |
| Render.WrapBudget | fmcardgen/draw.py:57 | The budget is the configured maximum width when it is set and non-zero. If it is unset or zero, the budget is the distance from the field's x to the image's right edge |
| Render.LaidOutText | fmcardgen/draw.py:56-58 | Text is wrapped against the budget only when the field asks for wrapping, and is otherwise drawn as given |
| Render.Pad | fmcardgen/draw.py:63-70 | The padded rectangle grows by left plus right in width and by top plus bottom in height, and contains the text box when no padding is negative |
| Render.PadRoundTrip | fmcardgen/draw.py:67-70 | Shrinking by the same insets undoes padding, and padding undoes shrinking |
| Render.PadMonotone | fmcardgen/draw.py:67-70 | More padding on every side gives a rectangle containing the less padded one |
| Render.DrawTextField | fmcardgen/draw.py:50-84 | With a background colour, the field issues exactly two operations; without one, exactly one. The text is always drawn last, at the field's anchor, in the foreground colour, and is the laid-out text. The first of two operations is a composite of the background colour over the text box of the drawn text, expanded by the padding, so it contains that box when no padding is negative |
| Render.DrawCard | fmcardgen/draw.py:13-45 | A card issues one operation per field plus one per field with a background |
| Render.DrawCardAppend | fmcardgen/draw.py:13-45 | Drawing two lists of fields one after the other issues the first list's operations followed by the second's |
| Render.OneTextPerField | fmcardgen/draw.py:13-45 | Each field draws its text exactly once |
| Render.FieldOrder | fmcardgen/draw.py:13-45 | Field i's operations come after those of every earlier field and before those of every later one, so fields are drawn in configuration order |
| Render.LastFieldTextOnTop | fmcardgen/draw.py:13-84 | The card's final operation is the last field's text, at its anchor, in its foreground colour |

## Left out

- The drawing library is not modelled. Opening images, loading fonts, the
  text bounding box, filling rectangles, alpha compositing and drawing text
  are all foreign calls. They appear only as the abstract operations
  `Composite` and `DrawText` and as the font oracles.
- How `draw` resolves each field's value is not modelled
  (`fmcardgen/draw.py:15-43`). That covers front-matter lookup, the
  defaults, date parsing and `str.format`. `DrawCard` receives each field
  with its text already resolved; the front-matter module is not part of
  this model.
- The chunk tokenizer (`TextWrapper._split_chunks`,
  `fmcardgen/draw.py:88-89`) is a standard-library private function and is
  not modelled. The chunks are an input. No claim is made that they
  reassemble into the original text, because the tokenizer expands tabs
  and turns every ASCII whitespace character into a space. Other
  whitespace, such as U+00A0, can survive inside a chunk.
- Negative measurements are not covered by the width claims. The width
  oracle may return any integer, but `LinesFit`, `WideChunkAlone`,
  `LongestFitThenBreak`, `FirstLineIsLongestFit` and `AllFitOneLine`
  assume every chunk involved measures at least zero, as glyph advance
  widths do. `WordsPreserved` assumes more than zero; the zero case is
  `WrapExamples.ZeroWidthChunkDropped`.
- Kerning is not modelled: a font may measure a concatenation differently
  from the sum of its parts. All width statements are about summed
  per-chunk measurements.
- Floating point is not modelled. The alpha fraction is an exact real, so
  `a * 255` is exact before rounding.
- The `assert isinstance(...)` lines (`fmcardgen/draw.py:66`, `83`) are
  type-checker aids. The datatypes make them hold by construction.
- The image comparison helper of the tests (`tests/test_draw.py:97-134`)
  is not modelled. It computes floating-point image statistics and does
  file I/O.
- The two full wrapping test texts (`tests/test_draw.py:53-80`) and the
  tail of the third are not reproduced as concrete layouts. They depend on
  the real font's glyph widths. They are covered by the general lemmas
  instead. `WrapExamples.DoubleWordFirstLine` pins down the first line of
  the third test for any font that measures the doubled word wider than
  the 600 budget; the rest of that layout needs the real glyph widths.
- WrapExamples.BlankLineAfterWhitespaceBreak: the empty line is shown at
  the level of chunk lines, not of the final joined text. After
  stripping, that line renders as an empty piece between two line feeds.

=== FILE: colors.dfy ===
/**
  `to_pil_color` (fmcardgen/draw.py:126-140): a configured colour, as the
  configuration library's `as_rgb_tuple` hands it over, becomes the integer
  tuple the drawing library expects. Three channels pass through; a fourth,
  an alpha fraction in [0, 1], becomes `round(a * 255)`.

  The alpha fraction is an exact real here, and Python's `round` on it is
  round-half-to-even, written out below.
 */
module Colors {

  /** The tuple `as_rgb_tuple` returns: opaque, or with an alpha fraction. */
  datatype Color = Rgb(r: int, g: int, b: int) | Rgba(r: int, g: int, b: int, a: real)

  /** The tuple handed to the drawing library. */
  datatype PilColor = Pil3(r: int, g: int, b: int) | Pil4(r: int, g: int, b: int, a: int)

  /** Python's `round(x)`: the nearest integer, ties going to the even one. */
  function RoundHalfEven(x: real): (n: int)
    ensures -0.5 <= x - n as real <= 0.5
    ensures (x - n as real == 0.5 || x - n as real == -0.5) ==> n % 2 == 0
  {
    var f := x.Floor;
    var d := x - f as real;
    if d < 0.5 then f
    else if d > 0.5 then f + 1
    else if f % 2 == 0 then f
    else f + 1
  }

  /** No integer lies closer to `x` than its rounding does. */
  lemma RoundIsNearest(x: real, m: int)
    ensures var d := x - RoundHalfEven(x) as real;
            var e := x - m as real;
            (if d < 0.0 then -d else d) <= (if e < 0.0 then -e else e)
  {
    var n := RoundHalfEven(x);
    if m > n {
      assert x - m as real <= x - n as real - 1.0;
    } else if m < n {
      assert x - m as real >= x - n as real + 1.0;
    }
  }

  /** The two properties of `RoundHalfEven`'s contract single out its result. */
  lemma RoundUnique(x: real, m: int)
    requires -0.5 <= x - m as real <= 0.5
    requires (x - m as real == 0.5 || x - m as real == -0.5) ==> m % 2 == 0
    ensures m == RoundHalfEven(x)
  {
  }

  /** `to_pil_color`. */
  function ToPilColor(c: Color): (p: PilColor)
    ensures c.Rgb? <==> p.Pil3?
    ensures p.r == c.r && p.g == c.g && p.b == c.b
    ensures c.Rgba? ==> -0.5 <= c.a * 255.0 - p.a as real <= 0.5
    ensures c.Rgba? && (c.a * 255.0 - p.a as real == 0.5 || c.a * 255.0 - p.a as real == -0.5) ==> p.a % 2 == 0
  {
    match c
    case Rgb(r, g, b) => Pil3(r, g, b)
    case Rgba(r, g, b, a) => Pil4(r, g, b, RoundHalfEven(a * 255.0))
  }

  /** An alpha fraction in [0, 1] becomes an alpha in [0, 255]. */
  lemma AlphaInRange(c: Color)
    requires c.Rgba? && 0.0 <= c.a <= 1.0
    ensures 0 <= ToPilColor(c).a <= 255
  {
  }

  /** The fraction k/255 that a hex colour's alpha byte k parses to comes back as k. */
  lemma AlphaByteRoundTrip(r: int, g: int, b: int, k: int)
    ensures ToPilColor(Rgba(r, g, b, k as real / 255.0)) == Pil4(r, g, b, k)
  {
    assert (k as real / 255.0) * 255.0 == k as real;
    RoundUnique(k as real, k);
  }

  /** The conversions the tests and configuration rely on: `#ff000066` and
      `(255, 0, 0, 0.4)` both reach the drawing library with alpha 102, and
      an opaque colour passes unchanged. Half alpha, 127.5, rounds to the
      even 128. */
  lemma ConversionExamples()
    ensures ToPilColor(Rgba(0, 0, 0, 0.5)) == Pil4(0, 0, 0, 128)
    ensures ToPilColor(Rgba(255, 0, 0, 0x66 as real / 255.0)) == Pil4(255, 0, 0, 102)
    ensures ToPilColor(Rgba(255, 0, 0, 0.4)) == Pil4(255, 0, 0, 102)
    ensures ToPilColor(Rgb(255, 0, 0)) == Pil3(255, 0, 0)
  {
    AlphaByteRoundTrip(255, 0, 0, 0x66);
    assert 0.4 == 0x66 as real / 255.0;
  }
}

=== FILE: render.dfy ===
/**
  The decisions of `draw_text_field` (fmcardgen/draw.py:50-84) and the field
  loop of `draw` (fmcardgen/draw.py:10-47), as a trace of abstract drawing
  operations.

  The drawing library is not modelled: a font is a pair of oracles (the
  per-chunk width that wrapping measures with and the text bounding box the
  background is fitted to), the tokenizer that cuts text into chunks is an
  oracle, and drawing is the ordered list of operations the source issues —
  a background rectangle drawn on a transparent overlay and composited onto
  the image, then the text drawn directly.
 */
module Render {
  import opened Wrap
  import opened Colors

  datatype Option<T> = None | Some(value: T)

  /** Four independent insets around the text box. */
  datatype Padding = Padding(top: int, right: int, bottom: int, left: int)

  /** A box `(x0, y0, x1, y1)` as the drawing library reports and takes it. */
  datatype Rect = Rect(x0: int, y0: int, x1: int, y1: int)

  /** The geometry and style part of a text field's configuration. `font` is
      `None` for the built-in default font sentinel; `maxWidth` is `None`
      when no explicit width is configured. */
  datatype FieldConfig = FieldConfig(
    x: int,
    y: int,
    font: Option<string>,
    fontSize: int,
    fg: Color,
    bg: Option<Color>,
    padding: Padding,
    wrap: bool,
    maxWidth: Option<int>)

  /** Which font the field is drawn with. */
  datatype FontRef = DefaultFont | TrueType(path: string, size: int)

  /** What the model needs of a loaded font: the width of a chunk and the
      bounding box of a (possibly multi-line) text anchored at a point. */
  datatype Font = Font(width: Chunk -> int, bbox: (int, int, string) -> Rect)

  /** The operations `draw_text_field` performs on the image, in order. */
  datatype Op =
    | Composite(rect: Rect, fill: PilColor)
    | DrawText(x: int, y: int, text: string, fill: PilColor)

  /** The default bitmap font for the sentinel, otherwise the configured file at the configured size. */
  function SelectFont(field: FieldConfig): (f: FontRef)
    ensures f.DefaultFont? <==> field.font.None?
    ensures f.TrueType? ==> f.path == field.font.value && f.size == field.fontSize
  {
    match field.font
    case None => DefaultFont
    case Some(path) => TrueType(path, field.fontSize)
  }

  /** The wrapping budget: the configured maximum width when it is set and
      non-zero (Python truthiness), otherwise the room between the field's x
      and the image's right edge. */
  function WrapBudget(imWidth: int, field: FieldConfig): (w: int)
    ensures (field.maxWidth.Some? && field.maxWidth.value != 0) ==> w == field.maxWidth.value
    ensures (field.maxWidth.None? || field.maxWidth == Some(0)) ==> w == imWidth - field.x
  {
    if field.maxWidth.Some? && field.maxWidth.value != 0 then field.maxWidth.value
    else imWidth - field.x
  }

  /** The text actually drawn: wrapped only when the field asks for it. */
  function LaidOutText(imWidth: int, text: string, field: FieldConfig, font: Font, split: string -> seq<Chunk>): (t: string)
    ensures !field.wrap ==> t == text
    ensures field.wrap ==> t == WrapFontText(font.width, split(text), WrapBudget(imWidth, field))
  {
    if field.wrap then WrapFontText(font.width, split(text), WrapBudget(imWidth, field)) else text
  }

  predicate Contains(outer: Rect, inner: Rect) {
    outer.x0 <= inner.x0 && outer.y0 <= inner.y0 && inner.x1 <= outer.x1 && inner.y1 <= outer.y1
  }

  predicate NonNegativePadding(p: Padding) {
    p.top >= 0 && p.right >= 0 && p.bottom >= 0 && p.left >= 0
  }

  /** The text box expanded by the padding: left and top move the near
      corner out, right and bottom the far corner. */
  function Pad(box: Rect, p: Padding): (r: Rect)
    ensures NonNegativePadding(p) ==> Contains(r, box)
    ensures r.x1 - r.x0 == (box.x1 - box.x0) + p.left + p.right
    ensures r.y1 - r.y0 == (box.y1 - box.y0) + p.top + p.bottom
  {
    Rect(box.x0 - p.left, box.y0 - p.top, box.x1 + p.right, box.y1 + p.bottom)
  }

  /** Shrinking by the same insets undoes the padding. */
  function Unpad(r: Rect, p: Padding): Rect {
    Rect(r.x0 + p.left, r.y0 + p.top, r.x1 - p.right, r.y1 - p.bottom)
  }

  lemma PadRoundTrip(box: Rect, p: Padding)
    ensures Unpad(Pad(box, p), p) == box
    ensures Pad(Unpad(box, p), p) == box
  {
  }

  /** Padding is monotone: a box padded at least as much contains the other. */
  lemma PadMonotone(box: Rect, p: Padding, q: Padding)
    requires p.top <= q.top && p.right <= q.right && p.bottom <= q.bottom && p.left <= q.left
    ensures Contains(Pad(box, q), Pad(box, p))
  {
  }

  /** `draw_text_field`: with a background colour, one rectangle composited
      before the text, fitted to the drawn text's box and padded; the text is
      always drawn, always last, at the field's anchor in the foreground
      colour. */
  function DrawTextField(imWidth: int, text: string, field: FieldConfig,
                         fonts: FontRef -> Font, split: string -> seq<Chunk>): (ops: seq<Op>)
    ensures |ops| == (if field.bg.Some? then 2 else 1)
    ensures var font := fonts(SelectFont(field));
            ops[|ops| - 1] == DrawText(field.x, field.y, LaidOutText(imWidth, text, field, font, split), ToPilColor(field.fg))
    ensures forall i | 0 <= i < |ops| - 1 :: ops[i].Composite?
    ensures field.bg.Some? ==>
              var font := fonts(SelectFont(field));
              var box := font.bbox(field.x, field.y, ops[1].text);
              && ops[0].fill == ToPilColor(field.bg.value)
              && Unpad(ops[0].rect, field.padding) == box
              && (NonNegativePadding(field.padding) ==> Contains(ops[0].rect, box))
  {
    var font := fonts(SelectFont(field));
    var shown := LaidOutText(imWidth, text, field, font, split);
    var textOp := DrawText(field.x, field.y, shown, ToPilColor(field.fg));
    match field.bg
    case None => [textOp]
    case Some(bg) =>
      var box := font.bbox(field.x, field.y, shown);
      PadRoundTrip(box, field.padding);
      [Composite(Pad(box, field.padding), ToPilColor(bg)), textOp]
  }

  /** The field loop of `draw`: each field's operations, in configuration
      order, so later fields are drawn over earlier ones. Each field comes
      with its already resolved value. */
  function DrawCard(imWidth: int, fields: seq<(string, FieldConfig)>,
                    fonts: FontRef -> Font, split: string -> seq<Chunk>): (ops: seq<Op>)
    ensures |ops| == |fields| + BackgroundCount(fields)
  {
    if |fields| == 0 then []
    else DrawTextField(imWidth, fields[0].0, fields[0].1, fonts, split) + DrawCard(imWidth, fields[1..], fonts, split)
  }

  /** How many of the fields have a background colour. */
  function BackgroundCount(fields: seq<(string, FieldConfig)>): nat {
    if |fields| == 0 then 0 else (if fields[0].1.bg.Some? then 1 else 0) + BackgroundCount(fields[1..])
  }

  /** How many text operations a trace holds. */
  function TextCount(ops: seq<Op>): nat {
    if |ops| == 0 then 0 else (if ops[0].DrawText? then 1 else 0) + TextCount(ops[1..])
  }

  lemma {:induction false} TextCountAppend(a: seq<Op>, b: seq<Op>)
    ensures TextCount(a + b) == TextCount(a) + TextCount(b)
    decreases |a|
  {
    if |a| > 0 {
      assert (a + b)[0] == a[0];
      assert (a + b)[1..] == a[1..] + b;
      TextCountAppend(a[1..], b);
    } else {
      assert a + b == b;
    }
  }

  /** Every field draws its text exactly once. */
  lemma {:induction false} OneTextPerField(imWidth: int, fields: seq<(string, FieldConfig)>,
                                           fonts: FontRef -> Font, split: string -> seq<Chunk>)
    ensures TextCount(DrawCard(imWidth, fields, fonts, split)) == |fields|
    decreases |fields|
  {
    if |fields| > 0 {
      var first := DrawTextField(imWidth, fields[0].0, fields[0].1, fonts, split);
      OneTextPerField(imWidth, fields[1..], fonts, split);
      TextCountAppend(first, DrawCard(imWidth, fields[1..], fonts, split));
      if |first| == 1 {
        assert TextCount(first) == 1 by { assert first[1..] == []; }
      } else {
        assert TextCount(first) == 1 by { assert first[1..][1..] == []; }
      }
    }
  }

  /** Rendering a concatenation of field lists renders one after the other. */
  lemma {:induction false} DrawCardAppend(imWidth: int, a: seq<(string, FieldConfig)>, b: seq<(string, FieldConfig)>,
                                          fonts: FontRef -> Font, split: string -> seq<Chunk>)
    ensures DrawCard(imWidth, a + b, fonts, split) == DrawCard(imWidth, a, fonts, split) + DrawCard(imWidth, b, fonts, split)
    decreases |a|
  {
    if |a| == 0 {
      assert a + b == b;
    } else {
      var first := DrawTextField(imWidth, a[0].0, a[0].1, fonts, split);
      assert (a + b)[0] == a[0];
      assert (a + b)[1..] == a[1..] + b;
      DrawCardAppend(imWidth, a[1..], b, fonts, split);
      assert first + (DrawCard(imWidth, a[1..], fonts, split) + DrawCard(imWidth, b, fonts, split))
          == (first + DrawCard(imWidth, a[1..], fonts, split)) + DrawCard(imWidth, b, fonts, split);
    }
  }

  /** Field `i`'s operations sit between those of the fields before it and
      those of the fields after it: rendering follows configuration order. */
  lemma FieldOrder(imWidth: int, fields: seq<(string, FieldConfig)>,
                   fonts: FontRef -> Font, split: string -> seq<Chunk>, i: int)
    requires 0 <= i < |fields|
    ensures DrawCard(imWidth, fields, fonts, split)
         == DrawCard(imWidth, fields[..i], fonts, split)
          + DrawTextField(imWidth, fields[i].0, fields[i].1, fonts, split)
          + DrawCard(imWidth, fields[i + 1..], fonts, split)
  {
    var one := [fields[i]];
    assert fields == fields[..i] + (one + fields[i + 1..]);
    DrawCardAppend(imWidth, fields[..i], one + fields[i + 1..], fonts, split);
    DrawCardAppend(imWidth, one, fields[i + 1..], fonts, split);
    assert one[1..] == [];
    assert DrawCard(imWidth, one, fonts, split) == DrawTextField(imWidth, fields[i].0, fields[i].1, fonts, split) + [];
  }

  /** The card's last operation is the last field's text. */
  lemma LastFieldTextOnTop(imWidth: int, fields: seq<(string, FieldConfig)>,
                           fonts: FontRef -> Font, split: string -> seq<Chunk>)
    requires |fields| > 0
    ensures var ops := DrawCard(imWidth, fields, fonts, split);
            var f := fields[|fields| - 1];
            |ops| > 0 && ops[|ops| - 1].DrawText? && ops[|ops| - 1].x == f.1.x && ops[|ops| - 1].y == f.1.y
            && ops[|ops| - 1].fill == ToPilColor(f.1.fg)
  {
    var n := |fields| - 1;
    FieldOrder(imWidth, fields, fonts, split, n);
    assert fields[n + 1..] == [];
  }
}

=== FILE: text.dfy ===
/**
  The Python string primitives the line wrapper relies on: `str.isspace`,
  `str.strip`, `"".join`, `"\n".join`, and `str.split("\n")` as the partner
  that takes a joined text apart again.
 */
module Text {

  /** The characters for which Python's `str.isspace` holds. */
  predicate IsWhite(c: char) {
    || ('\t' <= c <= '\r')                 // tab, line feed, vertical tab, form feed, carriage return
    || ('\U{001C}' <= c <= ' ')             // the four separators 0x1C-0x1F and space
    || c == '\U{0085}' || c == '\U{00A0}' || c == '\U{1680}'
    || ('\U{2000}' <= c <= '\U{200A}')
    || c == '\U{2028}' || c == '\U{2029}' || c == '\U{202F}' || c == '\U{205F}' || c == '\U{3000}'
  }

  /** `s.isspace()`: true of a non-empty string made only of whitespace. */
  predicate IsSpace(s: string) {
    |s| > 0 && forall i | 0 <= i < |s| :: IsWhite(s[i])
  }

  /** No whitespace at either end. */
  predicate Trimmed(s: string) {
    |s| == 0 || (!IsWhite(s[0]) && !IsWhite(s[|s| - 1]))
  }

  /** `s.lstrip()`: the longest suffix of `s` that does not start with whitespace. */
  function TrimLeft(s: string): (r: string)
    ensures |r| <= |s| && r == s[|s| - |r|..]
    ensures forall k | 0 <= k < |s| - |r| :: IsWhite(s[k])
    ensures |r| == 0 || !IsWhite(r[0])
  {
    if |s| > 0 && IsWhite(s[0]) then TrimLeft(s[1..]) else s
  }

  /** `s.rstrip()`: the longest prefix of `s` that does not end with whitespace. */
  function TrimRight(s: string): (r: string)
    ensures |r| <= |s| && r == s[..|r|]
    ensures forall k | |r| <= k < |s| :: IsWhite(s[k])
    ensures |r| == 0 || !IsWhite(r[|r| - 1])
  {
    if |s| > 0 && IsWhite(s[|s| - 1]) then TrimRight(s[..|s| - 1]) else s
  }

  /** `r` is `s[i..j]`, and everything of `s` outside that slice is whitespace. */
  predicate EdgeCut(s: string, r: string, i: int, j: int) {
    && 0 <= i <= j <= |s|
    && r == s[i..j]
    && (forall k | 0 <= k < i :: IsWhite(s[k]))
    && (forall k | j <= k < |s| :: IsWhite(s[k]))
  }

  /** Some slice of `s` is `r`, and only whitespace lies outside it. */
  predicate CutsTo(s: string, r: string) {
    exists i, j | 0 <= i <= j <= |s| :: EdgeCut(s, r, i, j)
  }

  /** `s.strip()`: whitespace removed from both ends, nothing else touched.
      That the result holds only characters of `s` follows from `CutsTo`; it
      is stated as well because later proofs use it in that form. */
  function Strip(s: string): (r: string)
    ensures Trimmed(r)
    ensures CutsTo(s, r)
    ensures forall c | c in r :: c in s
    ensures (forall i | 0 <= i < |s| :: !IsWhite(s[i])) ==> r == s
    ensures |r| == 0 <==> forall i | 0 <= i < |s| :: IsWhite(s[i])
  {
    StripCut(s);
    StripBounds(s);
    TrimRight(TrimLeft(s))
  }

  /** Trimming both ends cuts only whitespace away, so, as a corollary, keeps
      only characters of the input. */
  lemma StripCut(s: string)
    ensures var r := TrimRight(TrimLeft(s));
      && CutsTo(s, r)
      && (forall c | c in r :: c in s)
  {
    var t := TrimLeft(s);
    var r := TrimRight(t);
    TrimLeftCut(s);
    TrimRightCut(t);
    CutCompose(s, t, r, |s| - |t|, |r|);
  }

  /** Trimming both ends leaves no whitespace at either end, empties exactly
      an all-whitespace string and leaves one without whitespace untouched. */
  lemma StripBounds(s: string)
    ensures var r := TrimRight(TrimLeft(s));
      && Trimmed(r)
      && ((forall i | 0 <= i < |s| :: !IsWhite(s[i])) ==> r == s)
      && (|r| == 0 <==> forall i | 0 <= i < |s| :: IsWhite(s[i]))
  {
    StripEdges(TrimLeft(s));
    TrimLeftEmpty(s);
    TrimRightEmpty(TrimLeft(s));
  }

  lemma TrimLeftCut(s: string)
    ensures EdgeCut(s, TrimLeft(s), |s| - |TrimLeft(s)|, |s|)
  {
  }

  lemma TrimRightCut(t: string)
    ensures EdgeCut(t, TrimRight(t), 0, |TrimRight(t)|)
  {
  }

  /** Cutting whitespace off the front and then off the back is one cut. */
  lemma CutCompose(s: string, t: string, r: string, i: int, n: int)
    requires EdgeCut(s, t, i, |s|)
    requires EdgeCut(t, r, 0, n)
    ensures EdgeCut(s, r, i, i + n) && CutsTo(s, r)
    ensures forall c | c in r :: c in s
  {
    assert r == t[..n];
    assert r == s[i..i + n];
    forall k | i + n <= k < |s| ensures IsWhite(s[k]) {
      assert s[k] == t[k - i];
    }
    forall k | 0 <= k < |r| ensures r[k] in s {
      assert r[k] == s[i + k];
    }
    assert EdgeCut(s, r, i, i + n);
  }

  /** The ends of a non-empty edge cut that leaves no whitespace at its ends. */
  lemma CutEnds(s: string, r: string, i: int, j: int)
    requires EdgeCut(s, r, i, j) && Trimmed(r) && |r| > 0
    ensures i < j && !IsWhite(s[i]) && !IsWhite(s[j - 1])
  {
    assert r[0] == s[i];
    assert r[|r| - 1] == s[j - 1];
  }

  /** Two positions that both hold the first non-whitespace character coincide. */
  lemma FirstNonWhite(s: string, i: int, i': int)
    requires 0 <= i < |s| && 0 <= i' < |s| && !IsWhite(s[i]) && !IsWhite(s[i'])
    requires forall k | 0 <= k < i :: IsWhite(s[k])
    requires forall k | 0 <= k < i' :: IsWhite(s[k])
    ensures i == i'
  {
  }

  /** Two positions just past the last non-whitespace character coincide. */
  lemma LastNonWhite(s: string, j: int, j': int)
    requires 0 < j <= |s| && 0 < j' <= |s| && !IsWhite(s[j - 1]) && !IsWhite(s[j' - 1])
    requires forall k | j <= k < |s| :: IsWhite(s[k])
    requires forall k | j' <= k < |s| :: IsWhite(s[k])
    ensures j == j'
  {
  }

  /** The partner of `Strip`: a slice of `s` that only cuts whitespace away
      and has none left at its ends is the strip of `s`, so the contract of
      `Strip` leaves no choice. */
  lemma StripUnique(s: string, r: string, i: int, j: int)
    requires EdgeCut(s, r, i, j) && Trimmed(r)
    ensures r == Strip(s)
  {
    var p := Strip(s);
    var i', j' :| EdgeCut(s, p, i', j');
    if |r| == 0 {
      forall k | 0 <= k < |s| ensures IsWhite(s[k]) {
        assert k < i || j <= k;
      }
    } else {
      CutEnds(s, r, i, j);
      assert |p| > 0;
      CutEnds(s, p, i', j');
      FirstNonWhite(s, i, i');
      LastNonWhite(s, j, j');
    }
  }

  /** A string is whitespace exactly when it is non-empty and stripping empties it. */
  lemma SpaceIsStrippedAway(s: string)
    ensures IsSpace(s) <==> |s| > 0 && |Strip(s)| == 0
  {
  }

  lemma StripEdges(t: string)
    requires |t| == 0 || !IsWhite(t[0])
    ensures Trimmed(TrimRight(t))
  {
    var r := TrimRight(t);
    assert |r| > 0 ==> r[0] == t[0];
  }

  /** Left-trimming empties exactly an all-whitespace string, and leaves one with none untouched. */
  lemma TrimLeftEmpty(s: string)
    ensures |TrimLeft(s)| == 0 <==> forall i | 0 <= i < |s| :: IsWhite(s[i])
    ensures (forall i | 0 <= i < |s| :: !IsWhite(s[i])) ==> TrimLeft(s) == s
  {
    var r := TrimLeft(s);
    if |r| > 0 {
      assert r[0] == s[|s| - |r|];
    }
  }

  /** Right-trimming empties exactly an all-whitespace string, and leaves one with none untouched. */
  lemma TrimRightEmpty(s: string)
    ensures |TrimRight(s)| == 0 <==> forall i | 0 <= i < |s| :: IsWhite(s[i])
    ensures (forall i | 0 <= i < |s| :: !IsWhite(s[i])) ==> TrimRight(s) == s
  {
    var r := TrimRight(s);
    if |r| > 0 {
      assert r[|r| - 1] == s[|r| - 1];
    }
  }

  /** A string with no whitespace at either end is its own strip. */
  lemma StripTrimmed(s: string)
    requires |s| > 0 && !IsWhite(s[0]) && !IsWhite(s[|s| - 1])
    ensures Strip(s) == s
  {
    assert TrimLeft(s) == s;
  }

  /** `"".join(parts)`. */
  function Concat(parts: seq<string>): (r: string)
    ensures |parts| == 0 ==> r == ""
    ensures |parts| == 1 ==> r == parts[0]
  {
    if |parts| == 0 then "" else parts[0] + Concat(parts[1..])
  }

  /** Joining a concatenation of lists joins each list and concatenates the results. */
  lemma {:induction false} ConcatAppend(a: seq<string>, b: seq<string>)
    ensures Concat(a + b) == Concat(a) + Concat(b)
    decreases |a|
  {
    if |a| > 0 {
      assert (a + b)[0] == a[0];
      assert (a + b)[1..] == a[1..] + b;
      ConcatAppend(a[1..], b);
    } else {
      assert a + b == b;
    }
  }

  /** `"\n".join(lines)`: one line feed between neighbours, none at the ends. */
  function JoinLines(lines: seq<string>): (r: string)
    ensures |lines| == 0 ==> r == ""
    ensures |lines| == 1 ==> r == lines[0]
  {
    if |lines| == 0 then ""
    else if |lines| == 1 then lines[0]
    else lines[0] + "\n" + JoinLines(lines[1..])
  }

  /** `s.split("\n")`: the pieces between line feeds; always at least one. */
  function SplitLines(s: string): (r: seq<string>)
    ensures |r| > 0
    ensures forall i | 0 <= i < |r| :: '\n' !in r[i]
  {
    if |s| == 0 then [""]
    else
      var rest := SplitLines(s[1..]);
      if s[0] == '\n' then [""] + rest
      else [[s[0]] + rest[0]] + rest[1..]
  }

  /** Splitting a line-feed-free prefix onto whatever follows. */
  lemma {:induction false} SplitLinesPrefix(a: string, t: string)
    requires '\n' !in a
    ensures SplitLines(a + t) == [a + SplitLines(t)[0]] + SplitLines(t)[1..]
    decreases |a|
  {
    if |a| > 0 {
      assert (a + t)[1..] == a[1..] + t;
      assert (a + t)[0] == a[0];
      SplitLinesPrefix(a[1..], t);
      assert [a[0]] + (a[1..] + SplitLines(t)[0]) == a + SplitLines(t)[0];
    } else {
      var r := SplitLines(t);
      assert a + t == t;
      assert a + r[0] == r[0];
      assert [r[0]] + r[1..] == r;
    }
  }

  /** Joining what was split gives the text back. */
  lemma {:induction false} JoinSplit(s: string)
    ensures JoinLines(SplitLines(s)) == s
    decreases |s|
  {
    if |s| > 0 {
      JoinSplit(s[1..]);
      var rest := SplitLines(s[1..]);
      if s[0] == '\n' {
        if |rest| == 1 {
          assert JoinLines([""] + rest) == "" + "\n" + rest[0];
        } else {
          assert ([""] + rest)[1..] == rest;
        }
      } else {
        var r := [[s[0]] + rest[0]] + rest[1..];
        if |rest| == 1 {
          assert JoinLines(r) == [s[0]] + rest[0];
        } else {
          assert r[1..] == rest[1..];
          assert JoinLines(rest) == rest[0] + "\n" + JoinLines(rest[1..]);
        }
      }
    }
  }

  /** Splitting what was joined gives the lines back, provided there is at least
      one line and no line holds a line feed of its own. */
  lemma {:induction false} SplitJoin(lines: seq<string>)
    requires |lines| > 0
    requires forall i | 0 <= i < |lines| :: '\n' !in lines[i]
    ensures SplitLines(JoinLines(lines)) == lines
    decreases |lines|
  {
    if |lines| == 1 {
      SplitLinesPrefix(lines[0], "");
      assert lines[0] + "" == lines[0];
    } else {
      var tail := JoinLines(lines[1..]);
      SplitJoin(lines[1..]);
      assert lines[0] + "\n" + tail == lines[0] + ("\n" + tail);
      SplitLinesPrefix(lines[0], "\n" + tail);
      assert ("\n" + tail)[1..] == tail;
      assert SplitLines("\n" + tail) == [""] + lines[1..];
      assert lines[0] + "" == lines[0];
    }
  }
}

=== FILE: wrap.dfy ===
/**
  The greedy, measurement-driven line breaker `wrap_font_text`
  (fmcardgen/draw.py:87-120).

  The chunks are an input: they are what the standard library's tokenizer
  hands the loop, each either a run of spaces or a run without one. The
  font's measurement `font.getsize(chunk)[0]` is the uninterpreted oracle
  `width`. The loop is modelled as a left fold of `Step` over the chunks,
  whose state is the emitted lines, the pending line and its accumulated
  width, exactly the three variables of the source loop.

  `{:induction false}` on a lemma that does not call itself switches off
  Dafny's automatic induction: the proof is the lemma calls in the body, and
  an induction hypothesis would only widen the solver's search.
 */
module Wrap {
  import opened Text

  type Chunk = string

  /** `lines`, `cur_line` and `cur_line_width` of the source loop. */
  datatype State = State(lines: seq<seq<Chunk>>, cur: seq<Chunk>, curWidth: int)

  const Start := State([], [], 0)

  /** One iteration of the loop body for `chunk`. */
  function Step(width: Chunk -> int, maxWidth: int, s: State, chunk: Chunk): State {
    var w := width(chunk);
    if s.curWidth + w > maxWidth then
      if s.curWidth == 0 then
        // The chunk alone overflows: it becomes a line and the pending
        // line is dropped, whatever zero-width chunks it held.
        State(s.lines + [[chunk]], [], 0)
      else
        // Close the pending line; a breaking whitespace chunk is discarded
        // but its width still seeds the new line.
        State(s.lines + [s.cur], if IsSpace(chunk) then [] else [chunk], w)
    else
      State(s.lines, s.cur + [chunk], s.curWidth + w)
  }

  /** What one iteration does, independently of how it is written: emitted
      lines are never revised and at most one is added; a line is emitted
      exactly when the chunk would overflow the budget; otherwise the chunk
      joins the pending line; after a break the pending line is empty or
      the single non-whitespace chunk. */
  lemma StepShape(width: Chunk -> int, maxWidth: int, s: State, chunk: Chunk)
    ensures var r := Step(width, maxWidth, s, chunk);
      && s.lines <= r.lines && |r.lines| <= |s.lines| + 1
      && (|r.lines| == |s.lines| + 1 <==> s.curWidth + width(chunk) > maxWidth)
      && (|r.lines| == |s.lines| ==> r.cur == s.cur + [chunk])
      && (|r.lines| > |s.lines| ==> r.cur == [] || (r.cur == [chunk] && !IsSpace(chunk)))
  {
  }

  /** The loop over `chunks`, starting in state `s`. */
  function Run(width: Chunk -> int, maxWidth: int, s: State, chunks: seq<Chunk>): State
    decreases |chunks|
  {
    if |chunks| == 0 then s
    else Run(width, maxWidth, Step(width, maxWidth, s, chunks[0]), chunks[1..])
  }

  /** The flush after the loop: the pending line is kept only when it holds a chunk. */
  function Flush(s: State): seq<seq<Chunk>> {
    if |s.cur| > 0 then s.lines + [s.cur] else s.lines
  }

  /** The lines, as chunk sequences, that `wrap_font_text` builds. */
  function WrapChunks(width: Chunk -> int, maxWidth: int, chunks: seq<Chunk>): seq<seq<Chunk>> {
    Flush(Run(width, maxWidth, Start, chunks))
  }

  /** Each line's chunks concatenated and stripped. */
  function StrippedLines(lines: seq<seq<Chunk>>): (r: seq<string>)
    ensures |r| == |lines|
    ensures forall i | 0 <= i < |r| :: r[i] == Strip(Concat(lines[i]))
  {
    seq(|lines|, i requires 0 <= i < |lines| => Strip(Concat(lines[i])))
  }

  /** `wrap_font_text`: the stripped lines joined by line feeds. No chunks
      give the empty text, and a single chunk comes back stripped, whatever
      its width. */
  function WrapFontText(width: Chunk -> int, chunks: seq<Chunk>, maxWidth: int): (text: string)
    ensures |chunks| == 0 ==> text == ""
    ensures |chunks| == 1 ==> text == Strip(chunks[0])
  {
    OneChunkOneLine(width, maxWidth, chunks);
    JoinLines(StrippedLines(WrapChunks(width, maxWidth, chunks)))
  }

  /** A single chunk is always a line by itself, whether or not it fits. */
  lemma OneChunkOneLine(width: Chunk -> int, maxWidth: int, chunks: seq<Chunk>)
    ensures |chunks| == 1 ==> WrapChunks(width, maxWidth, chunks) == [chunks]
  {
    if |chunks| == 1 {
      var r := Step(width, maxWidth, Start, chunks[0]);
      assert Run(width, maxWidth, Start, chunks) == Run(width, maxWidth, r, chunks[1..]);
      assert chunks[1..] == [];
      assert chunks == [chunks[0]];
      if width(chunks[0]) <= maxWidth {
        assert r.cur == [] + [chunks[0]] == chunks;
        assert Flush(r) == [] + [chunks];
      }
    }
  }

  /** The source loop, statement for statement, with the fold as its
      specification; the special case's `continue` becomes an `else`. */
  method WrapLoop(width: Chunk -> int, chunks: seq<Chunk>, maxWidth: int) returns (text: string)
    ensures text == WrapFontText(width, chunks, maxWidth)
  {
    var lines: seq<seq<Chunk>> := [];
    var cur: seq<Chunk> := [];
    var curWidth := 0;
    var i := 0;
    while i < |chunks|
      invariant 0 <= i <= |chunks|
      invariant Run(width, maxWidth, State(lines, cur, curWidth), chunks[i..])
             == Run(width, maxWidth, Start, chunks)
    {
      var chunk := chunks[i];
      var w := width(chunk);
      assert chunks[i..][1..] == chunks[i + 1..];
      if curWidth + w > maxWidth {
        if curWidth == 0 {
          lines := lines + [[chunk]];
          cur := [];
          curWidth := 0;
        } else {
          lines := lines + [cur];
          cur := if IsSpace(chunk) then [] else [chunk];
          curWidth := w;
        }
      } else {
        cur := cur + [chunk];
        curWidth := curWidth + w;
      }
      i := i + 1;
    }
    if |cur| > 0 {
      lines := lines + [cur];
    }
    text := JoinLines(StrippedLines(lines));
  }

  // ---------------------------------------------------------------------------
  // Measures over chunk sequences

  /** The summed per-chunk measurements of a line. */
  function SumWidth(width: Chunk -> int, cs: seq<Chunk>): int {
    if |cs| == 0 then 0 else SumWidth(width, cs[..|cs| - 1]) + width(cs[|cs| - 1])
  }

  ghost predicate NonNegative(width: Chunk -> int, cs: seq<Chunk>) {
    forall i | 0 <= i < |cs| :: width(cs[i]) >= 0
  }

  ghost predicate Positive(width: Chunk -> int, cs: seq<Chunk>) {
    forall i | 0 <= i < |cs| :: width(cs[i]) > 0
  }

  /** All lines laid end to end. */
  function Flatten(lines: seq<seq<Chunk>>): seq<Chunk> {
    if |lines| == 0 then [] else lines[0] + Flatten(lines[1..])
  }

  /** The non-whitespace chunks, in order. */
  function Words(cs: seq<Chunk>): seq<Chunk> {
    if |cs| == 0 then [] else (if IsSpace(cs[0]) then [] else [cs[0]]) + Words(cs[1..])
  }

  lemma {:induction false} WordsAppend(a: seq<Chunk>, b: seq<Chunk>)
    ensures Words(a + b) == Words(a) + Words(b)
    decreases |a|
  {
    if |a| > 0 {
      assert (a + b)[0] == a[0];
      assert (a + b)[1..] == a[1..] + b;
      WordsAppend(a[1..], b);
    } else {
      assert a + b == b;
    }
  }

  lemma {:induction false} FlattenAppend(a: seq<seq<Chunk>>, b: seq<seq<Chunk>>)
    ensures Flatten(a + b) == Flatten(a) + Flatten(b)
    decreases |a|
  {
    if |a| > 0 {
      assert (a + b)[0] == a[0];
      assert (a + b)[1..] == a[1..] + b;
      FlattenAppend(a[1..], b);
    } else {
      assert a + b == b;
    }
  }

  lemma {:induction false} SumWidthAppend(width: Chunk -> int, a: seq<Chunk>, b: seq<Chunk>)
    ensures SumWidth(width, a + b) == SumWidth(width, a) + SumWidth(width, b)
    decreases |b|
  {
    if |b| > 0 {
      var ab := a + b;
      assert ab[..|ab| - 1] == a + b[..|b| - 1];
      SumWidthAppend(width, a, b[..|b| - 1]);
    } else {
      assert a + b == a;
    }
  }

  /** With non-negative measurements a line is at least as wide as any of its chunks.
      Not inductive; see the module note on `{:induction false}`. Here the
      hypotheses Dafny would add over `cs` and `j` exhaust the solver. */
  lemma {:induction false} SumWidthCoversChunk(width: Chunk -> int, cs: seq<Chunk>, j: int)
    requires NonNegative(width, cs)
    requires 0 <= j < |cs|
    ensures SumWidth(width, cs) >= width(cs[j])
    ensures |cs| >= 2 ==> SumWidth(width, cs) >= width(cs[j]) + width(cs[if j == 0 then 1 else 0])
  {
    var k := if j == 0 then 1 else 0;
    SumNonNegative(width, cs);
    if |cs| >= 2 {
      var lo := if j < k then j else k;
      var hi := if j < k then k else j;
      assert cs == cs[..lo] + [cs[lo]] + cs[lo + 1..hi] + [cs[hi]] + cs[hi + 1..];
      SumWidthAppend(width, cs[..lo] + [cs[lo]] + cs[lo + 1..hi] + [cs[hi]], cs[hi + 1..]);
      SumWidthAppend(width, cs[..lo] + [cs[lo]] + cs[lo + 1..hi], [cs[hi]]);
      SumWidthAppend(width, cs[..lo] + [cs[lo]], cs[lo + 1..hi]);
      SumWidthAppend(width, cs[..lo], [cs[lo]]);
      SumNonNegative(width, cs[..lo]);
      SumNonNegative(width, cs[lo + 1..hi]);
      SumNonNegative(width, cs[hi + 1..]);
      assert SumWidth(width, [cs[lo]]) == width(cs[lo]);
      assert SumWidth(width, [cs[hi]]) == width(cs[hi]);
    } else {
      assert cs == [cs[0]];
    }
  }

  lemma {:induction false} SumNonNegative(width: Chunk -> int, cs: seq<Chunk>)
    requires NonNegative(width, cs)
    ensures SumWidth(width, cs) >= 0
    decreases |cs|
  {
    if |cs| > 0 {
      SumNonNegative(width, cs[..|cs| - 1]);
    }
  }

  // ---------------------------------------------------------------------------
  // Structure of the fold

  lemma RunStep(width: Chunk -> int, maxWidth: int, s: State, cs: seq<Chunk>, i: int)
    requires 0 <= i < |cs|
    ensures Run(width, maxWidth, s, cs[i..]) == Run(width, maxWidth, Step(width, maxWidth, s, cs[i]), cs[i + 1..])
  {
    assert cs[i..][1..] == cs[i + 1..];
  }

  /** Running over two pieces is running over the first, then the second. */
  lemma {:induction false} RunAppend(width: Chunk -> int, maxWidth: int, s: State, a: seq<Chunk>, b: seq<Chunk>)
    ensures Run(width, maxWidth, s, a + b) == Run(width, maxWidth, Run(width, maxWidth, s, a), b)
    decreases |a|
  {
    if |a| > 0 {
      assert (a + b)[0] == a[0];
      assert (a + b)[1..] == a[1..] + b;
      RunAppend(width, maxWidth, Step(width, maxWidth, s, a[0]), a[1..], b);
    } else {
      assert a + b == b;
    }
  }

  /** Lines already emitted are never touched again: the fold only appends. */
  lemma {:induction false} RunShift(width: Chunk -> int, maxWidth: int, done: seq<seq<Chunk>>, s: State, cs: seq<Chunk>)
    ensures var r := Run(width, maxWidth, s, cs);
            Run(width, maxWidth, State(done + s.lines, s.cur, s.curWidth), cs)
            == State(done + r.lines, r.cur, r.curWidth)
    decreases |cs|
  {
    if |cs| > 0 {
      var s' := Step(width, maxWidth, s, cs[0]);
      var t := State(done + s.lines, s.cur, s.curWidth);
      var t' := Step(width, maxWidth, t, cs[0]);
      assert t'.lines == done + s'.lines by {
        assert done + s.lines + [[cs[0]]] == done + (s.lines + [[cs[0]]]);
        assert done + s.lines + [s.cur] == done + (s.lines + [s.cur]);
      }
      RunShift(width, maxWidth, done, s', cs[1..]);
    }
  }

  /** Wrapping `chunks` from a state whose pending line is empty and whose
      width is zero: the result is the lines already emitted followed by the
      wrap of `chunks` alone. */
  lemma WrapFromCleanState(width: Chunk -> int, maxWidth: int, done: seq<seq<Chunk>>, chunks: seq<Chunk>)
    ensures Flush(Run(width, maxWidth, State(done, [], 0), chunks)) == done + WrapChunks(width, maxWidth, chunks)
  {
    RunShift(width, maxWidth, done, Start, chunks);
    assert done + Start.lines == done;
    var r := Run(width, maxWidth, Start, chunks);
    if |r.cur| > 0 {
      assert done + r.lines + [r.cur] == done + (r.lines + [r.cur]);
    }
  }

  // ---------------------------------------------------------------------------
  // Greedy maximality

  /** While the chunks fit the budget they are appended to the pending line
      and nothing is emitted. Measurements must be non-negative so that the
      running total only grows. */
  lemma {:induction false} AppendWhileFits(width: Chunk -> int, maxWidth: int, s: State, cs: seq<Chunk>, k: int)
    requires 0 <= k <= |cs|
    requires NonNegative(width, cs[..k])
    requires s.curWidth + SumWidth(width, cs[..k]) <= maxWidth
    ensures Run(width, maxWidth, s, cs)
         == Run(width, maxWidth, State(s.lines, s.cur + cs[..k], s.curWidth + SumWidth(width, cs[..k])), cs[k..])
    decreases k
  {
    if k == 0 {
      assert cs[..0] == [];
      assert s.cur + [] == s.cur;
      assert cs[0..] == cs;
    } else {
      var p := cs[..k - 1];
      assert cs[..k][..k - 1] == p;
      assert NonNegative(width, p) by {
        forall i | 0 <= i < |p| ensures width(p[i]) >= 0 {
          assert p[i] == cs[..k][i];
        }
      }
      assert width(cs[k - 1]) >= 0 by { assert cs[..k][k - 1] == cs[k - 1]; }
      assert SumWidth(width, cs[..k]) == SumWidth(width, p) + width(cs[k - 1]);
      AppendWhileFits(width, maxWidth, s, cs, k - 1);
      var s1 := State(s.lines, s.cur + p, s.curWidth + SumWidth(width, p));
      RunStep(width, maxWidth, s1, cs, k - 1);
      assert s.cur + p + [cs[k - 1]] == s.cur + cs[..k] by {
        assert p + [cs[k - 1]] == cs[..k];
      }
    }
  }

  /** The pending line absorbs exactly the longest run of chunks that keeps
      the accumulated width within budget; the next chunk, which would push it
      past the budget, ends it. If the accumulated width is then still zero the
      overflowing chunk becomes a line of its own and the pending chunks are
      dropped; otherwise the pending line is emitted and the overflowing chunk
      seeds the next one, unless it is whitespace, in which case only its width
      does. */
  lemma LongestFitThenBreak(width: Chunk -> int, maxWidth: int, s: State, cs: seq<Chunk>, k: int)
    requires 0 <= k < |cs|
    requires NonNegative(width, cs[..k])
    requires s.curWidth + SumWidth(width, cs[..k]) <= maxWidth
    requires s.curWidth + SumWidth(width, cs[..k]) + width(cs[k]) > maxWidth
    ensures s.curWidth + SumWidth(width, cs[..k]) == 0 ==>
      Run(width, maxWidth, s, cs) == Run(width, maxWidth, State(s.lines + [[cs[k]]], [], 0), cs[k + 1..])
    ensures s.curWidth + SumWidth(width, cs[..k]) != 0 ==>
      Run(width, maxWidth, s, cs)
      == Run(width, maxWidth,
             State(s.lines + [s.cur + cs[..k]], if IsSpace(cs[k]) then [] else [cs[k]], width(cs[k])),
             cs[k + 1..])
  {
    AppendWhileFits(width, maxWidth, s, cs, k);
    var s1 := State(s.lines, s.cur + cs[..k], s.curWidth + SumWidth(width, cs[..k]));
    RunStep(width, maxWidth, s1, cs, k);
  }

  /** A run of chunks that fits the budget as a whole is appended in full. */
  lemma AppendAll(width: Chunk -> int, maxWidth: int, s: State, cs: seq<Chunk>)
    requires NonNegative(width, cs)
    requires s.curWidth + SumWidth(width, cs) <= maxWidth
    ensures Run(width, maxWidth, s, cs) == State(s.lines, s.cur + cs, s.curWidth + SumWidth(width, cs))
  {
    var n := |cs|;
    assert cs[..n] == cs;
    AppendWhileFits(width, maxWidth, s, cs, n);
    assert cs[n..] == [];
  }

  /** When all of the input fits the budget it is laid out on a single line:
      the wrapper never breaks early.
      Not inductive; see the module note on `{:induction false}`. */
  lemma {:induction false} AllFitOneLine(width: Chunk -> int, maxWidth: int, chunks: seq<Chunk>)
    requires |chunks| > 0
    requires NonNegative(width, chunks)
    requires SumWidth(width, chunks) <= maxWidth
    ensures WrapChunks(width, maxWidth, chunks) == [chunks]
  {
    AppendAll(width, maxWidth, Start, chunks);
    assert [] + chunks == chunks;
  }

  /** The first line is the longest prefix of the input whose summed width is
      within budget, provided that prefix measures more than zero. */
  lemma FirstLineIsLongestFit(width: Chunk -> int, maxWidth: int, chunks: seq<Chunk>, k: int)
    requires 0 <= k < |chunks|
    requires NonNegative(width, chunks[..k])
    requires 0 < SumWidth(width, chunks[..k]) <= maxWidth
    requires SumWidth(width, chunks[..k]) + width(chunks[k]) > maxWidth
    ensures |WrapChunks(width, maxWidth, chunks)| >= 1
    ensures WrapChunks(width, maxWidth, chunks)[0] == chunks[..k]
  {
    LongestFitThenBreak(width, maxWidth, Start, chunks, k);
    var line := chunks[..k];
    var seed: seq<Chunk> := if IsSpace(chunks[k]) then [] else [chunks[k]];
    assert [] + line == line;
    assert Start.lines + [Start.cur + line] == [line];
    assert Run(width, maxWidth, Start, chunks)
        == Run(width, maxWidth, State([line], seed, width(chunks[k])), chunks[k + 1..]);
    RunShift(width, maxWidth, [line], State([], seed, width(chunks[k])), chunks[k + 1..]);
    assert [line] + [] == [line];
    var r0 := Run(width, maxWidth, State([], seed, width(chunks[k])), chunks[k + 1..]);
    var r := Run(width, maxWidth, Start, chunks);
    assert r.lines == [line] + r0.lines;
    assert Flush(r)[0] == line;
  }

  /** A chunk too wide for the budget at the start of the input is a line by
      itself, and the remaining chunks are wrapped afresh. */
  lemma LeadingOverlongChunk(width: Chunk -> int, maxWidth: int, chunks: seq<Chunk>)
    requires |chunks| > 0
    requires width(chunks[0]) > maxWidth
    ensures WrapChunks(width, maxWidth, chunks)
         == [[chunks[0]]] + WrapChunks(width, maxWidth, chunks[1..])
  {
    assert Step(width, maxWidth, Start, chunks[0]) == State([[chunks[0]]], [], 0);
    assert Run(width, maxWidth, Start, chunks) == Run(width, maxWidth, State([[chunks[0]]], [], 0), chunks[1..]);
    WrapFromCleanState(width, maxWidth, [[chunks[0]]], chunks[1..]);
  }

  // ---------------------------------------------------------------------------
  // Width bound

  /** A line fits the budget or is a single chunk. */
  ghost predicate LineOk(width: Chunk -> int, maxWidth: int, line: seq<Chunk>) {
    |line| == 1 || SumWidth(width, line) <= maxWidth
  }

  ghost predicate FitInv(width: Chunk -> int, maxWidth: int, s: State) {
    && s.curWidth >= 0
    && SumWidth(width, s.cur) <= s.curWidth
    && (|s.cur| <= 1 || s.curWidth <= maxWidth)
    && (maxWidth < 0 ==> s.curWidth == 0)
    && forall i | 0 <= i < |s.lines| :: LineOk(width, maxWidth, s.lines[i])
  }

  lemma {:induction false} RunFits(width: Chunk -> int, maxWidth: int, s: State, cs: seq<Chunk>)
    requires NonNegative(width, cs)
    requires FitInv(width, maxWidth, s)
    ensures FitInv(width, maxWidth, Run(width, maxWidth, s, cs))
    decreases |cs|
  {
    if |cs| > 0 {
      var s' := Step(width, maxWidth, s, cs[0]);
      assert width(cs[0]) >= 0;
      if s.curWidth + width(cs[0]) <= maxWidth {
        assert (s.cur + [cs[0]])[..|s.cur|] == s.cur;
      } else if s.curWidth != 0 {
        assert SumWidth(width, [cs[0]]) == width(cs[0]) by { assert [cs[0]][..0] == []; }
      }
      assert FitInv(width, maxWidth, s');
      assert NonNegative(width, cs[1..]) by {
        forall i | 0 <= i < |cs| - 1 ensures width(cs[1..][i]) >= 0 {
          assert cs[1..][i] == cs[i + 1];
        }
      }
      RunFits(width, maxWidth, s', cs[1..]);
    }
  }

  /** Every emitted line either stays within the budget, by the sum of its
      chunks' measurements, or consists of exactly one chunk. */
  lemma LinesFit(width: Chunk -> int, maxWidth: int, chunks: seq<Chunk>)
    requires NonNegative(width, chunks)
    ensures var lines := WrapChunks(width, maxWidth, chunks);
            forall i | 0 <= i < |lines| :: |lines[i]| == 1 || SumWidth(width, lines[i]) <= maxWidth
  {
    RunFits(width, maxWidth, Start, chunks);
  }

  /** A chunk wider than the budget never shares a line with another chunk. */
  lemma WideChunkAlone(width: Chunk -> int, maxWidth: int, chunks: seq<Chunk>)
    requires NonNegative(width, chunks)
    ensures var lines := WrapChunks(width, maxWidth, chunks);
            forall i, j | 0 <= i < |lines| && 0 <= j < |lines[i]| ::
              width(lines[i][j]) > maxWidth ==> lines[i] == [lines[i][j]]
  {
    var lines := WrapChunks(width, maxWidth, chunks);
    LinesFit(width, maxWidth, chunks);
    LinesFromInput(width, maxWidth, chunks);
    forall i, j | 0 <= i < |lines| && 0 <= j < |lines[i]| && width(lines[i][j]) > maxWidth
      ensures lines[i] == [lines[i][j]]
    {
      var line := lines[i];
      assert NonNegative(width, line) by {
        forall t | 0 <= t < |line| ensures width(line[t]) >= 0 {
          assert line[t] in chunks;
        }
      }
      SumWidthCoversChunk(width, line, j);
      assert |line| == 1;
    }
  }

  // ---------------------------------------------------------------------------
  // Content preservation

  /** Every chunk of every line is one of the input's chunks. */
  lemma LinesFromInput(width: Chunk -> int, maxWidth: int, chunks: seq<Chunk>)
    ensures var lines := WrapChunks(width, maxWidth, chunks);
            forall i, j | 0 <= i < |lines| && 0 <= j < |lines[i]| :: lines[i][j] in chunks
  {
    RunDrawsFrom(width, maxWidth, Start, chunks, chunks);
  }

  ghost predicate DrawsFrom(s: State, pool: seq<Chunk>) {
    && (forall i, j | 0 <= i < |s.lines| && 0 <= j < |s.lines[i]| :: s.lines[i][j] in pool)
    && (forall j | 0 <= j < |s.cur| :: s.cur[j] in pool)
  }

  lemma {:induction false} RunDrawsFrom(width: Chunk -> int, maxWidth: int, s: State, cs: seq<Chunk>, pool: seq<Chunk>)
    requires DrawsFrom(s, pool)
    requires forall j | 0 <= j < |cs| :: cs[j] in pool
    ensures DrawsFrom(Run(width, maxWidth, s, cs), pool)
    decreases |cs|
  {
    if |cs| > 0 {
      var s' := Step(width, maxWidth, s, cs[0]);
      assert DrawsFrom(s', pool);
      RunDrawsFrom(width, maxWidth, s', cs[1..], pool);
    }
  }

  /** With positive measurements a zero accumulated width means an empty pending line. */
  ghost predicate WordsInv(s: State) {
    s.curWidth >= 0 && (s.curWidth == 0 ==> |s.cur| == 0)
  }

  /** All chunks handed out so far, emitted or pending. */
  function Laid(s: State): seq<Chunk> {
    Flatten(s.lines) + s.cur
  }

  lemma StepWords(width: Chunk -> int, maxWidth: int, s: State, c: Chunk)
    requires width(c) > 0
    requires WordsInv(s)
    ensures WordsInv(Step(width, maxWidth, s, c))
    ensures Words(Laid(Step(width, maxWidth, s, c))) == Words(Laid(s)) + Words([c])
  {
    var s' := Step(width, maxWidth, s, c);
    assert Words([c]) == (if IsSpace(c) then [] else [c]) by {
      assert [c][1..] == [];
    }
    if s.curWidth + width(c) > maxWidth {
      if s.curWidth == 0 {
        FlattenAppend(s.lines, [[c]]);
        assert Flatten([[c]]) == [c] + Flatten([]);
        assert Laid(s') == Flatten(s.lines) + [c];
        assert s.cur == [];
        assert Laid(s) == Flatten(s.lines);
        WordsAppend(Flatten(s.lines), [c]);
      } else {
        FlattenAppend(s.lines, [s.cur]);
        assert Flatten([s.cur]) == s.cur + Flatten([]);
        var seed: seq<Chunk> := if IsSpace(c) then [] else [c];
        assert Laid(s') == Laid(s) + seed;
        WordsAppend(Laid(s), seed);
        if !IsSpace(c) {
          assert seed == [c];
        } else {
          assert Words(seed) == [];
        }
      }
    } else {
      assert Laid(s') == Laid(s) + [c];
      WordsAppend(Laid(s), [c]);
    }
  }

  lemma {:induction false} RunWords(width: Chunk -> int, maxWidth: int, s: State, cs: seq<Chunk>)
    requires Positive(width, cs)
    requires WordsInv(s)
    ensures Words(Laid(Run(width, maxWidth, s, cs))) == Words(Laid(s)) + Words(cs)
    decreases |cs|
  {
    if |cs| > 0 {
      var s' := Step(width, maxWidth, s, cs[0]);
      assert width(cs[0]) > 0;
      StepWords(width, maxWidth, s, cs[0]);
      assert Positive(width, cs[1..]) by {
        forall i | 0 <= i < |cs| - 1 ensures width(cs[1..][i]) > 0 {
          assert cs[1..][i] == cs[i + 1];
        }
      }
      RunWords(width, maxWidth, s', cs[1..]);
      assert cs == [cs[0]] + cs[1..];
      WordsAppend([cs[0]], cs[1..]);
      var a, b, d := Words(Laid(s)), Words([cs[0]]), Words(cs[1..]);
      assert (a + b) + d == a + (b + d);
    }
  }

  /** Provided every chunk measures more than zero, the non-whitespace chunks
      of the output lines are exactly those of the input, in the same order:
      none is dropped, duplicated, split or reordered. */
  lemma WordsPreserved(width: Chunk -> int, maxWidth: int, chunks: seq<Chunk>)
    requires Positive(width, chunks)
    ensures Words(Flatten(WrapChunks(width, maxWidth, chunks))) == Words(chunks)
  {
    RunWords(width, maxWidth, Start, chunks);
    var r := Run(width, maxWidth, Start, chunks);
    assert Laid(Start) == [];
    assert Words(Laid(Start)) + Words(chunks) == Words(chunks);
    if |r.cur| > 0 {
      FlattenAppend(r.lines, [r.cur]);
      assert Flatten([r.cur]) == r.cur + Flatten([]);
      assert Flatten(Flush(r)) == Laid(r);
    } else {
      assert Laid(r) == Flatten(r.lines);
    }
  }

  // ---------------------------------------------------------------------------
  // Termination bound

  function PendingCount(s: State): nat {
    if |s.cur| > 0 || s.curWidth != 0 then 1 else 0
  }

  lemma {:induction false} RunCount(width: Chunk -> int, maxWidth: int, s: State, cs: seq<Chunk>)
    ensures var r := Run(width, maxWidth, s, cs);
            |r.lines| + PendingCount(r) <= |s.lines| + PendingCount(s) + |cs|
    decreases |cs|
  {
    if |cs| > 0 {
      RunCount(width, maxWidth, Step(width, maxWidth, s, cs[0]), cs[1..]);
    }
  }

  /** The loop emits at most one line per chunk, so the output has no more
      lines than the input has chunks. */
  lemma LineCountBound(width: Chunk -> int, maxWidth: int, chunks: seq<Chunk>)
    ensures |WrapChunks(width, maxWidth, chunks)| <= |chunks|
  {
    RunCount(width, maxWidth, Start, chunks);
  }

  lemma {:induction false} RunKeepsSomething(width: Chunk -> int, maxWidth: int, s: State, cs: seq<Chunk>)
    requires |s.lines| + |s.cur| > 0
    ensures var r := Run(width, maxWidth, s, cs); |r.lines| + |r.cur| > 0
    decreases |cs|
  {
    if |cs| > 0 {
      RunKeepsSomething(width, maxWidth, Step(width, maxWidth, s, cs[0]), cs[1..]);
    }
  }

  /** Some line is emitted exactly when there is some chunk. */
  lemma LinesNonEmpty(width: Chunk -> int, maxWidth: int, chunks: seq<Chunk>)
    ensures |WrapChunks(width, maxWidth, chunks)| > 0 <==> |chunks| > 0
  {
    if |chunks| > 0 {
      RunKeepsSomething(width, maxWidth, Step(width, maxWidth, Start, chunks[0]), chunks[1..]);
    }
  }

  // ---------------------------------------------------------------------------
  // The rendered text

  lemma {:induction false} ConcatNoLineFeed(parts: seq<string>)
    requires forall j | 0 <= j < |parts| :: '\n' !in parts[j]
    ensures '\n' !in Concat(parts)
    decreases |parts|
  {
    if |parts| > 0 {
      ConcatNoLineFeed(parts[1..]);
    }
  }

  /** Stripping keeps out line feeds that were not in the chunks. */
  lemma StrippedNoLineFeed(lines: seq<seq<Chunk>>)
    requires forall i, j | 0 <= i < |lines| && 0 <= j < |lines[i]| :: '\n' !in lines[i][j]
    ensures forall i | 0 <= i < |lines| :: '\n' !in StrippedLines(lines)[i]
  {
    var r := StrippedLines(lines);
    forall i | 0 <= i < |lines| ensures '\n' !in r[i] {
      ConcatNoLineFeed(lines[i]);
      assert r[i] == Strip(Concat(lines[i]));
    }
  }

  /** Joined stripped lines split back into the stripped lines themselves.
      Not inductive; see the module note on `{:induction false}`. */
  lemma {:induction false} StrippedRoundTrip(lines: seq<seq<Chunk>>)
    requires |lines| > 0
    requires forall i, j | 0 <= i < |lines| && 0 <= j < |lines[i]| :: '\n' !in lines[i][j]
    ensures SplitLines(JoinLines(StrippedLines(lines))) == StrippedLines(lines)
  {
    StrippedNoLineFeed(lines);
    SplitJoin(StrippedLines(lines));
  }

  /** The text that `wrap_font_text` returns, read back line by line: empty
      for no chunks; otherwise, when no chunk holds a line feed (the tokenizer
      turns every ASCII whitespace character, line feed included, into a
      space), splitting it at line feeds yields exactly one piece per emitted
      line, that line's chunks concatenated and stripped, so no piece starts
      or ends with whitespace.
      Not inductive; see the module note on `{:induction false}`. */
  lemma {:induction false} RenderedLines(width: Chunk -> int, maxWidth: int, chunks: seq<Chunk>)
    requires forall j | 0 <= j < |chunks| :: '\n' !in chunks[j]
    ensures |chunks| == 0 ==> WrapFontText(width, chunks, maxWidth) == ""
    ensures |chunks| > 0 ==>
      var lines := WrapChunks(width, maxWidth, chunks);
      var pieces := SplitLines(WrapFontText(width, chunks, maxWidth));
      && |pieces| == |lines|
      && forall i | 0 <= i < |pieces| ::
           && pieces[i] == Strip(Concat(lines[i]))
           && Trimmed(pieces[i])
  {
    var lines := WrapChunks(width, maxWidth, chunks);
    assert WrapFontText(width, chunks, maxWidth) == JoinLines(StrippedLines(lines));
    LinesNonEmpty(width, maxWidth, chunks);
    if |chunks| > 0 {
      LinesFromInput(width, maxWidth, chunks);
      forall i, j | 0 <= i < |lines| && 0 <= j < |lines[i]| ensures '\n' !in lines[i][j] {
        var k :| 0 <= k < |chunks| && chunks[k] == lines[i][j];
      }
      StrippedRoundTrip(lines);
    }
  }
}

=== FILE: wrap_examples.dfy ===
/**
  The wrapper on particular inputs: the leading over-long word of the
  repository's wrapping tests (tests/test_draw.py:83-94), and the two quirks
  of the loop's special case and of its whitespace break.
 */
module WrapExamples {
  import opened Text
  import opened Wrap

  /** A width oracle: 15 units per character plus 3 per chunk. */
  function Mono(c: Chunk): int {
    15 * |c| + 3
  }

  const DoubleWord: Chunk := "supercalifragilisticexpialidocioussupercalifragilisticexpialidocious"

  /** The doubled word of the test text arrives with nothing accumulated: in
      any font that measures it wider than the 600 budget, whatever follows it,
      it is the whole first line, and the rest is wrapped as if it stood alone. */
  lemma DoubleWordFirstLine(width: Chunk -> int, rest: seq<Chunk>)
    requires width(DoubleWord) > 600
    ensures |WrapChunks(width, 600, [DoubleWord] + rest)| >= 1
    ensures WrapChunks(width, 600, [DoubleWord] + rest)[0] == [DoubleWord]
    ensures WrapChunks(width, 600, [DoubleWord] + rest)[1..] == WrapChunks(width, 600, rest)
  {
    var chunks := [DoubleWord] + rest;
    LeadingOverlongChunk(width, 600, chunks);
    assert chunks[1..] == rest;
  }

  /** A whitespace chunk that breaks the line leaves its width behind in an
      otherwise empty pending line; a following chunk that overflows on its
      own then closes that empty line, so the text gains a blank line. */
  lemma BlankLineAfterWhitespaceBreak(width: Chunk -> int, maxWidth: int, a: Chunk, sp: Chunk, b: Chunk)
    requires IsSpace(sp) && !IsSpace(b)
    requires 0 < width(a) <= maxWidth < width(a) + width(sp)
    requires width(sp) + width(b) > maxWidth
    ensures WrapChunks(width, maxWidth, [a, sp, b]) == [[a], [], [b]]
  {
    var s1 := State([], [a], width(a));
    var s2 := State([[a]], [], width(sp));
    var s3 := State([[a], []], [b], width(b));
    assert Step(width, maxWidth, Start, a) == s1 by { assert [] + [a] == [a]; }
    var cs := [a, sp, b];
    var tail: seq<Chunk> := [b];
    assert Run(width, maxWidth, Start, cs) == Run(width, maxWidth, s1, [sp, b]) by { assert cs[1..] == [sp, b]; }
    assert Run(width, maxWidth, s1, [sp, b]) == Run(width, maxWidth, s2, tail) by {
      assert [sp, b][1..] == tail;
      assert [] + [[a]] == [[a]];
    }
    assert Run(width, maxWidth, s2, tail) == s3 by { assert |tail[1..]| == 0; }
  }

  /** For instance "word supercalifragilisticexpialidocious" under a budget of
      70 comes out with an empty line between its two words. */
  lemma BlankLineExample()
    ensures WrapChunks(Mono, 70, ["word", " ", "supercalifragilisticexpialidocious"])
         == [["word"], [], ["supercalifragilisticexpialidocious"]]
  {
    var w: Chunk := "supercalifragilisticexpialidocious";
    assert IsSpace(" ") by { assert IsWhite(" "[0]); }
    assert !IsSpace(w) by { assert !IsWhite(w[0]); }
    BlankLineAfterWhitespaceBreak(Mono, 70, "word", " ", w);
  }

  /** A width oracle under which the zero width space U+200B (not whitespace
      to Python) measures nothing. */
  function ZeroWidthAware(c: Chunk): int {
    if c == "\U{200B}" then 0 else Mono(c)
  }

  /** The special case tests the accumulated width, not the pending line:
      a pending zero-width chunk is dropped when an over-long chunk follows,
      which is why content preservation needs every chunk to measure more
      than zero. */
  lemma ZeroWidthChunkDropped()
    ensures WrapChunks(ZeroWidthAware, 100, ["\U{200B}", "supercalifragilisticexpialidocious"])
         == [["supercalifragilisticexpialidocious"]]
    ensures Words(["\U{200B}", "supercalifragilisticexpialidocious"])
         != Words(Flatten(WrapChunks(ZeroWidthAware, 100, ["\U{200B}", "supercalifragilisticexpialidocious"])))
  {
    assert !IsWhite("\U{200B}"[0]);
    assert !IsWhite("supercalifragilisticexpialidocious"[0]);
    assert Words(["supercalifragilisticexpialidocious"]) == ["supercalifragilisticexpialidocious"];
  }
}
